=== FILE: README.md ===
# fqrouter manager core in Dafny

This project models the core of the fqrouter manager process (`manager/main.py`)
and of its command helpers (`manager/utils/shell.py`):

- **Component lifecycle.** `start_components` registers each component's `stop`
  as a shutdown hook, calls `start`, and merges the returned
  `(method, url, handler)` triples into the dispatch table. When `start` raises,
  it calls `stop` and re-raises only for a mandatory component.
  `stop_components` stops components last first and absorbs every error.
  - Modules `Lifecycle` and `LifecycleProps`.
  - A component's behaviour is not visible here. It is a parameter `Env`
    holding one `Behavior` per component: mandatory or not, what `start`
    returns or that it raises, and whether `stop` raises.
  - A run is a trace of the calls made (`RegisterStop`, `Start`, `Stop`), the
    registries afterwards (dispatch table and shutdown hooks) and how the call
    ended.
- **Control surface and entry points.** Module `Control` covers:
  - which components free-internet connect starts, given the persisted flags
  - disconnect and is-connected
  - the ping reply and the self-check that reads it back
  - the components `run` starts and the table it serves with
  - `clean`'s stop sequence
  - the choice between `run` and `clean` from the command line
- **Command helpers.** Modules `Shell` and `ShellText` cover:
  - the command `launch_python` builds, and its grace-period verdict
  - what `monitor_process` logs and when it calls `on_exit`
  - the exit-status handling of `call`, `check_call` and `check_output` on the
    `su` path
  - the script all of them write to the stdin of a `su` shell, which is the
    command line joined with spaces, a newline, and `exit`

Module `Common` holds the `Option` and `Result` types and `Min`, which `Shell.Tail` and `Shell.MonitorProcess` use.

Three facts about the code shape the model:

- **Connect failures.** An exception from `start_components` escapes the
  connect handler, because nothing guards the call at `main.py:55`. So
  `Control.HandleConnect` replies `HandlerRaised` when a mandatory component
  fails to start.
- **Compensating stop.** Inside the `except` block of `start_components`, the
  compensating `comp.stop()` at `main.py:114` is not guarded. An exception from
  it escapes even for an optional component and ends the batch.
  `Lifecycle.Fatal` and the cause `CompensatingStopFailed` model this.
- **Connect selection.** The selection is a sequence of `list.remove` calls in a
  fixed order. It ends with a second removal of shortcut, guarded by a
  membership test (`main.py:38-54`). `Control.ConnectSelectionIsFilter` proves
  that the result equals a filter of the bundle and that no `remove` raises.

## Model

| member | source | states |
|---|---|---|
| Lifecycle.StartComponents | manager/main.py:103-117 | The hooks grow by exactly the components up to and including the first fatal one. The call completes iff no component is fatal; otherwise it raises for the first fatal component, with the compensating-stop exception taking precedence over the start exception. |
| Lifecycle.StopComponents | manager/main.py:120-125 | One stop per component in exactly reverse order, never raising; the failed stops are exactly the components whose stop raises. |
| LifecycleProps.StartTraceIsBlocks | manager/main.py:105-117 | The call sequence is, per reached component, register-stop, start, and a stop only when start raised. |
| LifecycleProps.StartCalls | manager/main.py:107-114 | Every reached component is registered and started in order; exactly those whose start raised are stopped. |
| LifecycleProps.StartOrdering | manager/main.py:107-114 | Each start immediately follows the registration of the same component's stop; each stop immediately follows a raising start of the same component. |
| LifecycleProps.StartTable | manager/main.py:108-110 | The table afterwards is the old table with the routes of every successfully started reached component written on top, in order; `None` contributes nothing. |
| Lifecycle.Merge | manager/main.py:109-110 | Writes the routes into the table one after another. MergeLastWriteWins states that the last write per key wins. |
| LifecycleProps.MergeLastWriteWins | manager/main.py:109-110 | For every key, the merged table holds the handler of the last route written for that key, or the old entry when no route has it. |
| LifecycleProps.StartTableLookup | manager/main.py:103-117 | For every key, the table after start-up holds the last contributed handler for it, or its previous entry. |
| LifecycleProps.OptionalFailureContinues | manager/main.py:112-117 | When no earlier component is fatal, an optional component whose start raises, and whose compensating stop does not raise, is stopped once, right after its start, and the loop continues exactly as a fresh call on the remaining components. |
| LifecycleProps.MandatoryFailureAborts | manager/main.py:112-116 | When no earlier component is fatal, a mandatory component whose start raises ends the batch. It is the raising component and is stopped once. Nothing after it is registered or started, and already started siblings are not stopped. |
| LifecycleProps.CompletedStartsAll | manager/main.py:105-111 | With no fatal component, every component is registered and started and the call returns normally. |
| LifecycleProps.BlocksCalls | manager/main.py:107-114 | Per block sequence, registrations and starts are exactly the components and stops exactly the failed starts. |
| LifecycleProps.BlocksShape | manager/main.py:107-114 | Inside the block sequence a start is always preceded by its own registration and a stop by its own raising start. |
| Control.Enabled | manager/main.py:39 | `config.read().get(key, True)`: a stored flag, or enabled when absent. ReadFlags and ConnectSelectionGates build on it. |
| Control.ReadFlags | manager/main.py:39-51 | The five flags the connect handler reads, each defaulting to enabled. ConnectSelectionGates states which components each flag admits. |
| Control.DropUnless | manager/main.py:39-41 | The guarded `remove`: the list unchanged when the flag is on. When it is off, the result is `ListRemove`, whose removed element RemoveFromMiddle pins down: the list one element shorter, or the ValueError exactly when the component is absent. |
| Control.SelectFrom | manager/main.py:38-54 | The five removals in source order on a given starting list. SelectFromIsFilter states that on a duplicate-free list holding the four components they never raise and equal the gate filter. |
| Control.ConnectSelection | manager/main.py:38-54 | The component list the connect handler starts. ConnectSelectionIsFilter states that it is always the filtered bundle. |
| Control.ListRemove | manager/main.py:41 | Python `list.remove`: it fails iff the element is absent, and otherwise shortens the list by one. |
| Control.RemoveFromMiddle | manager/main.py:41 | `remove` deletes the first occurrence: the part before it (free of the element) and the part after it stay in place. |
| Control.RemoveGated | manager/main.py:39-50 | On a list without duplicates that holds the element, closing that element's gate while every other gate stays the same equals removing that element from the filtered list. |
| Control.SelectFromIsFilter | manager/main.py:38-54 | On a duplicate-free base list that holds dns, scrambler, proxy and shortcut, the sequence of flag-driven removals never raises and yields the base list filtered by the gates. |
| Control.ConnectSelectionIsFilter | manager/main.py:37-54 | The components connect starts are exactly the bundle filtered by its configuration gates, and no `remove` fails. |
| Control.ConnectSelectionGates | manager/main.py:38-54 | Each of dns, scrambler and proxy is selected iff its flag is enabled or absent. Shortcut is selected iff both its own flag and direct access are. Bundle order is kept. |
| Control.ConnectExample | manager/main.py:38-54 | With dns and direct access disabled, connect selects exactly scrambler and proxy, in that order. |
| Control.HandleConnect | manager/main.py:37-57 | Connect runs `start_components` on the gated bundle; it replies with an empty body iff that call completes, and otherwise the exception escapes the handler. |
| Control.HandleDisconnect | manager/main.py:60-63 | Disconnect stops shortcut, proxy, scrambler, dns in that order, leaves the registries unchanged and replies with an empty body. |
| Control.IsFreeInternetConnected | manager/main.py:72-73 | Connected iff dns and proxy are both alive; proxy is asked only when dns is alive. |
| Control.HandleIsConnected | manager/main.py:66-69 | The body is `TRUE` iff connected and `FALSE` iff not. |
| Control.HandlePing | manager/main.py:32-34 | The ping reply `PONG/2`. CheckPing states that the self-check accepts exactly this body. |
| Control.CheckPing | manager/main.py:91-100 | The self-check passes iff the reply is exactly the ping handler's body (`main.py:32-34`); any other reply or a failed request exits with status 1. |
| Control.RunComponents | manager/main.py:77-82 | Lan is always started and comes last; wifi is started, before it, iff wifi is enabled or unset. |
| Control.Run | manager/main.py:76-88 | Run starts its components; it sets up the loopback alias iff wifi is disabled, and serves and spawns one self-check iff start-up does not raise. |
| Control.RunServesBuiltins | manager/main.py:83-86 | When start-up completes and the server runs, the served table maps the four built-in routes to their handlers whatever a component contributed, and keeps every other key as start-up left it. |
| Control.Clean | manager/main.py:128-131 | Clean stops all six components in reverse `ALL_COMPONENTS` order. |
| Control.Dispatch | manager/main.py:179-188 | `clean` iff the first argument is `clean`; `run` iff there is no argument or it is `run`; anything else is an unknown action naming the argument. |
| Shell.Popen | manager/utils/shell.py:92-100 | Goes through `su` iff escalation is on; otherwise the arguments pass unchanged. |
| Shell.PopenScriptLines | manager/utils/shell.py:93-97 | When no argument contains a newline, the script written to `su` splits at newlines into exactly the joined command line, `exit` and the final empty piece. |
| Shell.LaunchCommand | manager/utils/shell.py:13 | The command is busybox, `sh`, the launcher, `-m`, the module name, then exactly the given arguments. |
| Shell.LaunchPython | manager/utils/shell.py:12-32 | The process spawned is the same invocation that `Popen` would build for the launch command; `launch_python` calls `subprocess.Popen` itself and repeats the `su` writes (`shell.py:16-21`). The launch fails iff the grace-period poll reports any exit status, and then no monitor is spawned. Otherwise the process is returned and exactly one monitor is spawned. It logs two lines: first the command line, which is exactly the first line of the `su` script, then the exit output (or that it could not be read) on failure, or the name and pid on success. |
| Shell.LaunchScriptLines | manager/utils/shell.py:15-19 | With escalation, when neither the module name nor an argument contains a newline, the script text splits at newlines into the joined launch command, `exit` and a final empty piece. |
| Shell.Tail | manager/utils/shell.py:39 | Python `s[-n:]` for `n > 0`: the last `min(n, len(s))` characters, which complete the prefix to the original string. |
| Shell.MonitorProcess | manager/utils/shell.py:35-48 | `on_exit` is called exactly once when given. An excerpt is logged only for a non-zero exit and holds the last 1000 characters of the output. The process death is logged iff `communicate` raises. The exit is always logged. A hook failure is logged iff the hook raises, and it is the last line. |
| Shell.Call | manager/utils/shell.py:51-60 | Through `su`, the same script as `Popen` and the shell's exit status; otherwise the arguments are delegated unchanged. |
| Shell.CheckCall | manager/utils/shell.py:63-74 | Through `su`, it succeeds with 0 iff the exit status is 0, and otherwise raises CalledProcessError with the status and the arguments. |
| Shell.CheckOutput | manager/utils/shell.py:77-89 | Through `su`, it returns the output iff the exit status is 0, and otherwise raises CalledProcessError with the status, the arguments and the output. |
| Shell.SameScriptEverywhere | manager/utils/shell.py:17-97 | Every escalating path writes the same `su` script for the same arguments: `launch_python`, `call`, `check_call`, `check_output` and `Popen` (`shell.py:17-19, 54-56, 66-68, 80-82, 95-97`). |
| Shell.CheckedHelpersAgreeWithCall | manager/utils/shell.py:51-89 | Through `su`, `check_call` and `check_output` succeed exactly when `call` returns 0, and their errors carry that status. |
| ShellText.SplitJoin | manager/utils/shell.py:54 | Splitting a joined command line at the separator recovers the parts when there is at least one part and none contains the separator. |
| ShellText.JoinSplit | manager/utils/shell.py:54 | Joining the pieces of a split restores the text. |
| ShellText.JoinLosesBoundaries | manager/utils/shell.py:54-56 | Joining with spaces is not injective: `["a b"]` and `["a", "b"]` give the same command line and the same `su` script. |
| ShellText.SuScriptLines | manager/utils/shell.py:54-56 | When no argument contains a newline, the `su` script is exactly two lines, the command line and `exit`, followed by a final newline. |
| ShellText.SuScriptRecoversArgs | manager/utils/shell.py:54-56 | When there is at least one argument and none contains a space or newline, splitting the script's first line at single spaces gives back exactly the arguments. |
| ShellText.Join | manager/utils/shell.py:54 | Python's `sep.join(parts)`. SplitJoin and JoinSplit state its round trip with `Split`. |
| ShellText.CommandLine | manager/utils/shell.py:17 | The arguments joined with single spaces. SplitJoin states that splitting at spaces recovers them when there is at least one argument and none contains a space. |
| ShellText.SuScript | manager/utils/shell.py:17-19 | The text written to the stdin of `su`: the command line, a newline, and `exit` with its newline. SuScriptLines states its shape, and SameScriptEverywhere that all five escalating paths write it (`shell.py:17-19, 54-56, 66-68, 80-82, 95-97`). |

## Left out

- The log lines of `main.py` are left out: those of the connect handler and `run` for disabled components, `start_components` (including the `environment:` line), `stop_components`, `check_ping` and `clean`, and the log file setup in `setup_logging`. They change nothing the manager decides. The log lines of `launch_python` (`shell.py:14, 26, 28, 30`) and `monitor_process` are modelled as output; the traceback text of logged exceptions is not.
- Process spawning, pipes, `gevent.sleep`, `gevent.spawn` and the cooperative scheduler.
  - They are parameters: the poll result, what `communicate` returns or raises, and the exit status and output of the `su` shell.
  - Spawned monitors and self-checks are counted, not run.
- The HTTP server (`httpd.serve_forever`) and `urllib2`. The self-check receives the body of its request, or `None` when the request fails. `sys.exit(1)` is the verdict `Exit(1)`.
- The comp_* internals, `shutdown_hook` and `setup_lo_alias`. A component is its `Behavior`. The hook registry is the list of registered components. The loopback alias is a flag in `Control.Run`.
- Malformed `start` results: the model assumes `start` returns `None` or well-formed triples. In the code, a result that fails to unpack raises inside the `try` after earlier triples were already written.
- Control.HandleConnect: the configuration is read once, as one snapshot. The code calls `config.read()` once per flag, so a configuration changed between reads is not modelled.
- Control.Clean: only the stop sequence is modelled. The iptables dumps that follow it are diagnostics of the firewall tables and are left out. Only `CalledProcessError` is isolated per table, so another exception from the first dump skips the second.
- The start-up `echo` probe and the privilege drop in the `__main__` block (`main.py:162-172`). When `echo` fails, the code calls `os.setuid(int(sys.argv[2]))` and probes again. The model has no notion of process identity or privileges, so this privilege drop is left out.
- The gevent monkey patching in the `__main__` block: it changes the runtime, not a decision of the manager.
- Control.Enabled: the configuration holds booleans. The code tests Python truthiness (`not config.read().get(k, True)`, `main.py:39-51, 77`), so a stored `0`, `""`, empty list or `null` also disables a component. Non-boolean stored values are not modelled.
- How the shell behind `su` parses its script is not modelled. Shell.LaunchScriptLines, Shell.PopenScriptLines, ShellText.SuScriptLines and ShellText.SuScriptRecoversArgs state facts about the script text only. A shell also drops empty words, splits at tabs, and interprets quotes, backslashes (a trailing backslash joins the `exit` line onto the command), `$`, `;` and `#`.
- Shell.Call: without escalation, the model states only that the arguments are handed unchanged to `subprocess.call`. That library's behaviour is not part of this model.
- Shell.CheckCall: without escalation, only the hand-off of the unchanged arguments to `subprocess.check_call` is modelled, for the same reason.
- Shell.CheckOutput: without escalation, only the hand-off of the unchanged arguments to `subprocess.check_output` is modelled, for the same reason.
- Shell.Popen: without escalation, only the hand-off of the unchanged arguments to `subprocess.Popen` is modelled, for the same reason. The keyword arguments it forwards are not modelled.
- Shell.MonitorProcess: `proc.poll()` after `communicate` is taken to be the exit status. An exception from `poll` itself is not modelled.
- The Android service that posts the disconnect request (`DisconnectFreeInternetService.java`): platform glue around one HTTP request.
- Threads and cancellation: the source has neither beyond gevent's cooperative scheduling.

=== FILE: common.dfy ===
/** Types shared by the modules of the manager model. */
module Common {

  /** Python's optional value: `None` or something. The three members
      `IsFailure`, `PropagateFailure` and `Extract` let a chain of steps that
      may each give `None` be written with `:-`, stopping at the first `None`. */
  datatype Option<+T> = None | Some(value: T) {

    predicate IsFailure() {
      None?
    }

    function PropagateFailure<U>(): Option<U>
      requires None?
    {
      None
    }

    function Extract(): T
      requires Some?
    {
      value
    }

    /** What `x or default` gives for an optional list: the value, or the
        default when it is `None`. */
    function GetOr(default: T): T {
      if Some? then value else default
    }
  }

  /** The value an operation returns, or the exception it raises instead. */
  datatype Result<+R, +E> = Success(value: R) | Failure(error: E)

  function Min(a: int, b: int): int {
    if a <= b then a else b
  }
}

=== FILE: control.dfy ===
/** The manager's control surface and entry points (manager/main.py): the
    free-internet connect/disconnect/is-connected handlers, the ping probe
    and the self-check that reads it back, `run`, `clean`, and the choice of
    action from the command line.

    The persisted configuration is a map from flag name to boolean; a flag
    that is absent counts as enabled. */
module Control {
  import opened Common
  import opened Lifecycle
  import opened LifecycleProps

  type Config = map<string, bool>

  /** `config.read().get(key, True)`. */
  function Enabled(cfg: Config, key: string): bool {
    if key in cfg then cfg[key] else true
  }

  /** The components switched by free-internet connect and disconnect. */
  const Bundle: seq<Comp> := [Dns, Scrambler, Proxy, Shortcut]

  /** `ALL_COMPONENTS`. */
  const AllComponents: seq<Comp> := [Wifi, Dns, Scrambler, Proxy, Lan, Shortcut]

  // ---------------------------------------------------------------------
  // free-internet/connect

  /** Python's `list.remove(x)`: drop the first occurrence of `x`; `None`
      stands for the ValueError it raises when `x` is absent. */
  function ListRemove(s: seq<Comp>, x: Comp): (r: Option<seq<Comp>>)
    ensures r.Some? <==> x in s
    ensures r.Some? ==> |r.value| == |s| - 1
    decreases |s|
  {
    if |s| == 0 then None
    else if s[0] == x then Some(s[1..])
    else
      assert x in s <==> x in s[1..] by { assert s == [s[0]] + s[1..]; }
      match ListRemove(s[1..], x)
      case None => None
      case Some(t) => Some([s[0]] + t)
  }

  /** `if not enabled: components.remove(c)`, a failing remove propagated. */
  function DropUnless(s: seq<Comp>, enabled: bool, c: Comp): (r: Option<seq<Comp>>)
    ensures enabled ==> r == Some(s)
    ensures r.None? <==> !enabled && c !in s
    ensures r.Some? && !enabled ==> |r.value| == |s| - 1
  {
    if enabled then Some(s) else ListRemove(s, c)
  }

  /** The five flags `handle_free_internet_connect` consults. */
  datatype Flags = Flags(dns: bool, proxy: bool, scrambler: bool, shortcut: bool, direct: bool)

  function ReadFlags(cfg: Config): Flags {
    Flags(Enabled(cfg, "comp_dns_enabled"), Enabled(cfg, "comp_proxy_enabled"),
          Enabled(cfg, "tcp_scrambler_enabled"), Enabled(cfg, "china_shortcut_enabled"),
          Enabled(cfg, "direct_access_enabled"))
  }

  /** The component list `handle_free_internet_connect` passes to
      `start_components`: the bundle with dns, proxy, scrambler and shortcut
      removed by their own flags in that order, then shortcut removed once
      more, guarded by a membership test, when direct access is off. */
  function ConnectSelection(cfg: Config): Option<seq<Comp>> {
    SelectFrom(Bundle, ReadFlags(cfg))
  }

  /** The removals of `handle_free_internet_connect` applied to a starting
      list `base` (the bundle in the handler). */
  function SelectFrom(base: seq<Comp>, f: Flags): Option<seq<Comp>> {
    var s1 :- DropUnless(base, f.dns, Dns);
    var s2 :- DropUnless(s1, f.proxy, Proxy);
    var s3 :- DropUnless(s2, f.scrambler, Scrambler);
    var s4 :- DropUnless(s3, f.shortcut, Shortcut);
    if !f.direct && Shortcut in s4 then ListRemove(s4, Shortcut)
    else Some(s4)
  }

  /** Whether a component of the bundle passes its configuration gates;
      shortcut has two, its own flag and direct access. */
  predicate Gate(f: Flags, c: Comp) {
    match c
    case Dns => f.dns
    case Scrambler => f.scrambler
    case Proxy => f.proxy
    case Shortcut => f.shortcut && f.direct
    case _ => true
  }

  /** The elements of `s` that pass their gates, in their original order. */
  function Keep(s: seq<Comp>, f: Flags): seq<Comp>
    decreases |s|
  {
    if |s| == 0 then []
    else (if Gate(f, s[0]) then [s[0]] else []) + Keep(s[1..], f)
  }

  /** No component occurs twice. */
  predicate Unique(s: seq<Comp>)
    decreases |s|
  {
    |s| == 0 || (s[0] !in s[1..] && Unique(s[1..]))
  }

  /** `remove` takes out the first occurrence: whatever precedes it, when
      it does not contain `x`, and whatever follows it stay in place. */
  lemma {:induction false} RemoveFromMiddle(a: seq<Comp>, x: Comp, b: seq<Comp>)
    requires x !in a
    ensures ListRemove(a + [x] + b, x) == Some(a + b)
    decreases |a|
  {
    var s := a + [x] + b;
    if |a| == 0 {
      assert s == [x] + b;
      assert s[1..] == b;
      assert a + b == b;
    } else {
      assert s[0] == a[0];
      assert s[1..] == a[1..] + [x] + b;
      RemoveFromMiddle(a[1..], x, b);
      assert a + b == [a[0]] + (a[1..] + b);
    }
  }

  /** Removing from a list that starts with another element keeps that head. */
  lemma ListRemoveCons(h: Comp, s: seq<Comp>, x: Comp)
    requires h != x && x in s
    ensures ListRemove([h] + s, x) == Some([h] + ListRemove(s, x).value)
  {
    assert ([h] + s)[1..] == s;
  }

  lemma KeepCons(c: Comp, s: seq<Comp>, f: Flags)
    ensures Keep([c] + s, f) == (if Gate(f, c) then [c] else []) + Keep(s, f)
  {
    assert ([c] + s)[1..] == s;
  }

  /** Two gatings that agree on every element of `s` keep the same elements. */
  lemma {:induction false} KeepAgree(s: seq<Comp>, f: Flags, g: Flags)
    requires forall c :: c in s ==> Gate(f, c) == Gate(g, c)
    ensures Keep(s, f) == Keep(s, g)
    decreases |s|
  {
    if |s| != 0 {
      assert s[0] in s;
      assert forall c :: c in s[1..] ==> c in s;
      KeepAgree(s[1..], f, g);
    }
  }

  /** Closing the gate of one element that occurs once and passed before is
      the same as removing that element from the filtered list. */
  lemma {:induction false} RemoveGated(s: seq<Comp>, f: Flags, g: Flags, x: Comp)
    requires Unique(s) && x in s
    requires Gate(f, x) && !Gate(g, x)
    requires forall c :: c != x ==> Gate(f, c) == Gate(g, c)
    ensures ListRemove(Keep(s, f), x) == Some(Keep(s, g))
    decreases |s|
  {
    var h, t := s[0], s[1..];
    assert s == [h] + t;
    KeepCons(h, t, f);
    KeepCons(h, t, g);
    if h == x {
      assert forall c :: c in t ==> c != x;
      KeepAgree(t, f, g);
      assert Keep(s, f) == [] + [x] + Keep(t, f);
      RemoveFromMiddle([], x, Keep(t, f));
    } else {
      assert x in t;
      RemoveGated(t, f, g, x);
      assert Gate(f, h) == Gate(g, h);
      if Gate(f, h) {
        assert x in Keep(t, f);
        ListRemoveCons(h, Keep(t, f), x);
        assert Keep(s, f) == [h] + Keep(t, f);
        assert Keep(s, g) == [h] + Keep(t, g);
      } else {
        assert Keep(s, f) == Keep(t, f);
        assert Keep(s, g) == Keep(t, g);
      }
    }
  }

  /** One `if not flag: remove(x)` step of the selection, stated on filters:
      from the gating `f`, where `x` passes, to the gating `g`, where `x`
      passes exactly when `enabled`. */
  lemma DropGated(s: seq<Comp>, f: Flags, g: Flags, x: Comp, enabled: bool)
    requires Unique(s) && x in s
    requires Gate(f, x) && Gate(g, x) == enabled
    requires forall c :: c != x ==> Gate(f, c) == Gate(g, c)
    ensures DropUnless(Keep(s, f), enabled, x) == Some(Keep(s, g))
  {
    if enabled {
      KeepAgree(s, f, g);
    } else {
      RemoveGated(s, f, g, x);
    }
  }

  lemma {:induction false} KeepAll(s: seq<Comp>, f: Flags)
    requires forall c :: Gate(f, c)
    ensures Keep(s, f) == s
    decreases |s|
  {
    if |s| != 0 {
      KeepAll(s[1..], f);
      assert Keep(s, f) == [s[0]] + s[1..];
    }
  }

  lemma BundleUnique()
    ensures Unique(Bundle)
  {
    assert Bundle[1..] == [Scrambler, Proxy, Shortcut];
    assert Bundle[1..][1..] == [Proxy, Shortcut];
    assert Bundle[1..][1..][1..] == [Shortcut];
  }

  /** The selection never hits a failing remove, and it is exactly the bundle
      filtered by the gates. */
  lemma ConnectSelectionIsFilter(cfg: Config)
    ensures ConnectSelection(cfg) == Some(Keep(Bundle, ReadFlags(cfg)))
  {
    BundleUnique();
    SelectFromIsFilter(Bundle, ReadFlags(cfg));
  }

  /** On any list holding each of the four switched components once, the
      removals amount to filtering by the gates. */
  lemma SelectFromIsFilter(base: seq<Comp>, f: Flags)
    requires Unique(base)
    requires Dns in base && Proxy in base && Scrambler in base && Shortcut in base
    ensures SelectFrom(base, f) == Some(Keep(base, f))
  {
    var f0 := Flags(true, true, true, true, true);
    var f1 := f0.(dns := f.dns);
    var f2 := f1.(proxy := f.proxy);
    var f3 := f2.(scrambler := f.scrambler);
    var f4 := f3.(shortcut := f.shortcut);
    KeepAll(base, f0);
    DropGated(base, f0, f1, Dns, f.dns);
    DropGated(base, f1, f2, Proxy, f.proxy);
    DropGated(base, f2, f3, Scrambler, f.scrambler);
    DropGated(base, f3, f4, Shortcut, f.shortcut);
    var s4 := Keep(base, f4);
    assert SelectFrom(base, f) == if !f.direct && Shortcut in s4 then ListRemove(s4, Shortcut) else Some(s4);
    if f.direct {
      assert f4 == f;
    } else if Shortcut in s4 {
      KeepMembership(base, f4, Shortcut);
      RemoveGated(base, f4, f, Shortcut);
    } else {
      KeepMembership(base, f4, Shortcut);
      KeepAgree(base, f4, f);
    }
  }

  /** `s` occurs in `t` in the same order, possibly with gaps. */
  predicate Subsequence(s: seq<Comp>, t: seq<Comp>)
    decreases |t|
  {
    |s| == 0 || (|t| > 0 && ((s[0] == t[0] && Subsequence(s[1..], t[1..])) || Subsequence(s, t[1..])))
  }

  lemma {:induction false} KeepMembership(s: seq<Comp>, f: Flags, c: Comp)
    ensures c in Keep(s, f) <==> c in s && Gate(f, c)
    decreases |s|
  {
    if |s| != 0 {
      KeepMembership(s[1..], f, c);
      assert s == [s[0]] + s[1..];
    }
  }

  lemma {:induction false} KeepIsSubsequence(s: seq<Comp>, f: Flags)
    ensures Subsequence(Keep(s, f), s)
    decreases |s|
  {
    if |s| != 0 {
      KeepIsSubsequence(s[1..], f);
      var rest := Keep(s[1..], f);
      if Gate(f, s[0]) {
        assert Keep(s, f) == [s[0]] + rest;
        assert ([s[0]] + rest)[1..] == rest;
      } else {
        assert Keep(s, f) == rest;
      }
    }
  }

  /** A bundle component is selected exactly when its gates pass; in
      particular shortcut is selected exactly when both its own flag and
      direct access are enabled (or absent). The selection keeps the bundle
      order. */
  lemma ConnectSelectionGates(cfg: Config, c: Comp)
    ensures ConnectSelection(cfg).Some?
    ensures c in ConnectSelection(cfg).value <==> c in Bundle && Gate(ReadFlags(cfg), c)
    ensures Dns in ConnectSelection(cfg).value <==> Enabled(cfg, "comp_dns_enabled")
    ensures Scrambler in ConnectSelection(cfg).value <==> Enabled(cfg, "tcp_scrambler_enabled")
    ensures Proxy in ConnectSelection(cfg).value <==> Enabled(cfg, "comp_proxy_enabled")
    ensures Shortcut in ConnectSelection(cfg).value <==>
              Enabled(cfg, "china_shortcut_enabled") && Enabled(cfg, "direct_access_enabled")
    ensures Subsequence(ConnectSelection(cfg).value, Bundle)
  {
    var f := ReadFlags(cfg);
    ConnectSelectionIsFilter(cfg);
    KeepMembership(Bundle, f, c);
    KeepMembership(Bundle, f, Dns);
    KeepMembership(Bundle, f, Scrambler);
    KeepMembership(Bundle, f, Proxy);
    KeepMembership(Bundle, f, Shortcut);
    KeepIsSubsequence(Bundle, f);
  }

  /** With dns and direct access switched off, connect selects exactly
      scrambler and proxy. */
  lemma ConnectExample()
    ensures ConnectSelection(map["comp_dns_enabled" := false, "direct_access_enabled" := false])
            == Some([Scrambler, Proxy])
  {
    var cfg: Config := map["comp_dns_enabled" := false, "direct_access_enabled" := false];
    var f := Flags(false, true, true, true, false);
    assert "tcp_scrambler_enabled" !in cfg && "comp_proxy_enabled" !in cfg && "china_shortcut_enabled" !in cfg;
    assert ReadFlags(cfg) == f;
    ConnectSelectionIsFilter(cfg);
    var empty: seq<Comp> := [];
    KeepCons(Shortcut, empty, f);
    assert [Shortcut] == [Shortcut] + empty;
    assert Keep([Shortcut], f) == [];
    KeepCons(Proxy, [Shortcut], f);
    assert [Proxy, Shortcut] == [Proxy] + [Shortcut];
    assert Keep([Proxy, Shortcut], f) == [Proxy];
    KeepCons(Scrambler, [Proxy, Shortcut], f);
    assert [Scrambler, Proxy, Shortcut] == [Scrambler] + [Proxy, Shortcut];
    assert Keep([Scrambler, Proxy, Shortcut], f) == [Scrambler, Proxy];
    KeepCons(Dns, [Scrambler, Proxy, Shortcut], f);
    assert Bundle == [Dns] + [Scrambler, Proxy, Shortcut];
    assert Keep(Bundle, f) == [Scrambler, Proxy];
  }

  /** What a request handler did to the registries, and its reply: an empty
      or textual body, or an exception that escaped it. */
  datatype Reply = Ok(body: string) | HandlerRaised
  datatype Served = Served(trace: seq<Event>, registry: Registry, reply: Reply)

  /** `handle_free_internet_connect`: start the selected components; the
      handler replies with an empty body unless `start_components` raised. */
  function HandleConnect(cfg: Config, env: Env, reg: Registry): (r: Served)
    ensures var run := StartComponents(Keep(Bundle, ReadFlags(cfg)), env, reg);
            && r.trace == run.trace
            && r.registry == run.registry
            && (r.reply.Ok? <==> run.outcome.Completed?)
            && (r.reply.Ok? ==> r.reply.body == "")
  {
    ConnectSelectionIsFilter(cfg);
    match ConnectSelection(cfg)
    case Some(selection) =>
      var run := StartComponents(selection, env, reg);
      Served(run.trace, run.registry, if run.outcome.Completed? then Ok("") else HandlerRaised)
  }

  // ---------------------------------------------------------------------
  // free-internet/disconnect, free-internet/is-connected, ping

  /** `handle_free_internet_disconnect`: stop the whole bundle, last first. */
  function HandleDisconnect(env: Env, reg: Registry): (r: Served)
    ensures r.trace == [Stop(Shortcut), Stop(Proxy), Stop(Scrambler), Stop(Dns)]
    ensures r.registry == reg
    ensures r.reply == Ok("")
  {
    var run := StopComponents(Bundle, env);
    assert run.trace[0] == Stop(Shortcut) && run.trace[1] == Stop(Proxy);
    assert run.trace[2] == Stop(Scrambler) && run.trace[3] == Stop(Dns);
    Served(run.trace, reg, Ok(""))
  }

  /** The liveness predicates asked and the answer. */
  datatype Probe = Probe(asked: seq<Comp>, connected: bool)

  /** `is_free_internet_connected`: dns alive and proxy alive, with Python's
      short-circuit `and`: proxy is only asked when dns is alive. */
  function IsFreeInternetConnected(alive: Comp -> bool): (r: Probe)
    ensures r.connected <==> alive(Dns) && alive(Proxy)
    ensures r.asked == (if alive(Dns) then [Dns, Proxy] else [Dns])
  {
    if alive(Dns) then Probe([Dns, Proxy], alive(Proxy)) else Probe([Dns], false)
  }

  /** `handle_free_internet_is_connected`: `TRUE` or `FALSE`. */
  function HandleIsConnected(alive: Comp -> bool): (body: string)
    ensures body == "TRUE" <==> alive(Dns) && alive(Proxy)
    ensures body == "FALSE" <==> !(alive(Dns) && alive(Proxy))
  {
    if IsFreeInternetConnected(alive).connected then "TRUE" else "FALSE"
  }

  /** `handle_ping`. */
  function HandlePing(): string {
    "PONG/2"
  }

  /** What `check_ping` concludes: the process keeps running, or it exits
      with the given status. */
  datatype Verdict = Healthy | Exit(status: int)

  /** `check_ping`, given the body of the self-request (`None` when the
      request itself fails): only the exact ping reply passes; anything else
      ends the process with status 1. */
  function CheckPing(reply: Option<string>): (v: Verdict)
    ensures v == Healthy <==> reply == Some(HandlePing())
    ensures v != Healthy ==> v == Exit(1)
  {
    match reply
    case Some(body) => if body == "PONG/2" then Healthy else Exit(1)
    case None => Exit(1)
  }

  // ---------------------------------------------------------------------
  // run, clean and the command line

  /** The handlers `run` installs after starting its components. */
  const BuiltinRoutes: seq<Route> := [
    Route("GET", "ping", Ping),
    Route("POST", "free-internet/connect", Connect),
    Route("POST", "free-internet/disconnect", Disconnect),
    Route("GET", "free-internet/is-connected", IsConnected)
  ]

  /** The (method, url) keys of the built-in routes. */
  const BuiltinKeys: set<(string, string)> := set i | 0 <= i < |BuiltinRoutes| :: BuiltinRoutes[i].Key()

  /** The always-on components `run` starts: lan always, preceded by wifi
      unless the configuration disables it. */
  function RunComponents(cfg: Config): (comps: seq<Comp>)
    ensures Wifi in comps <==> Enabled(cfg, "comp_wifi_enabled")
    ensures 0 < |comps| && comps[|comps| - 1] == Lan
    ensures |comps| == (if Enabled(cfg, "comp_wifi_enabled") then 2 else 1)
  {
    if Enabled(cfg, "comp_wifi_enabled") then [Wifi, Lan] else [Lan]
  }

  /** What `run` did: whether it set up the loopback alias (wifi disabled),
      the start-up of its components, and, when that did not raise, the
      table it serves with and the one self-check it spawned. */
  datatype RunResult = RunResult(loAlias: bool, start: StartRun, serving: Option<Table>, selfChecks: nat)

  function Run(cfg: Config, env: Env, reg: Registry): (r: RunResult)
    ensures r.start == StartComponents(RunComponents(cfg), env, reg)
    ensures r.loAlias <==> !Enabled(cfg, "comp_wifi_enabled")
    ensures r.serving.Some? <==> r.start.outcome.Completed?
    ensures r.selfChecks == (if r.serving.Some? then 1 else 0)
  {
    var wifi := Enabled(cfg, "comp_wifi_enabled");
    var start := StartComponents(RunComponents(cfg), env, reg);
    if start.outcome.Completed? then
      RunResult(!wifi, start, Some(Merge(start.registry.table, BuiltinRoutes)), 1)
    else
      RunResult(!wifi, start, None, 0)
  }

  /** The table `run` serves with maps each built-in route to its handler,
      whatever a component contributed for the same key, and holds every
      other key exactly as start-up left it. */
  lemma RunServesBuiltins(cfg: Config, env: Env, reg: Registry, key: (string, string))
    requires Run(cfg, env, reg).serving.Some?
    ensures var t := Run(cfg, env, reg).serving.value;
            && Lookup(t, ("GET", "ping")) == Some(Ping)
            && Lookup(t, ("POST", "free-internet/connect")) == Some(Connect)
            && Lookup(t, ("POST", "free-internet/disconnect")) == Some(Disconnect)
            && Lookup(t, ("GET", "free-internet/is-connected")) == Some(IsConnected)
            && (key !in BuiltinKeys ==> Lookup(t, key) == Lookup(Run(cfg, env, reg).start.registry.table, key))
  {
    var t0 := Run(cfg, env, reg).start.registry.table;
    MergeLastWriteWins(t0, BuiltinRoutes, ("GET", "ping"));
    MergeLastWriteWins(t0, BuiltinRoutes, ("POST", "free-internet/connect"));
    MergeLastWriteWins(t0, BuiltinRoutes, ("POST", "free-internet/disconnect"));
    MergeLastWriteWins(t0, BuiltinRoutes, ("GET", "free-internet/is-connected"));
    MergeLastWriteWins(t0, BuiltinRoutes, key);
    LastWriteBuiltins(key);
  }

  lemma LastWriteBuiltins(key: (string, string))
    ensures LastWrite(BuiltinRoutes, ("GET", "ping")) == Some(Ping)
    ensures LastWrite(BuiltinRoutes, ("POST", "free-internet/connect")) == Some(Connect)
    ensures LastWrite(BuiltinRoutes, ("POST", "free-internet/disconnect")) == Some(Disconnect)
    ensures LastWrite(BuiltinRoutes, ("GET", "free-internet/is-connected")) == Some(IsConnected)
    ensures key !in BuiltinKeys ==> LastWrite(BuiltinRoutes, key) == None
  {
    var r := BuiltinRoutes;
    var r3 := r[..3];
    var r2 := r3[..2];
    var r1 := r2[..1];
    assert r3 == [r[0], r[1], r[2]];
    assert r2 == [r[0], r[1]];
    assert r1 == [r[0]];
    assert r1[..0] == [];
    forall k: (string, string)
      ensures LastWrite(r, k) ==
              if k == r[3].Key() then Some(r[3].handler)
              else if k == r[2].Key() then Some(r[2].handler)
              else if k == r[1].Key() then Some(r[1].handler)
              else if k == r[0].Key() then Some(r[0].handler)
              else None
    {
      assert LastWrite(r, k) == if k == r[3].Key() then Some(r[3].handler) else LastWrite(r3, k);
      assert LastWrite(r3, k) == if k == r[2].Key() then Some(r[2].handler) else LastWrite(r2, k);
      assert LastWrite(r2, k) == if k == r[1].Key() then Some(r[1].handler) else LastWrite(r1, k);
      assert LastWrite(r1, k) == if k == r[0].Key() then Some(r[0].handler) else LastWrite(r1[..0], k);
    }
    assert BuiltinKeys == {r[0].Key(), r[1].Key(), r[2].Key(), r[3].Key()};
  }

  /** `clean` stops every component, last first, and never raises. */
  function Clean(env: Env): (r: StopRun)
    ensures r.trace == [Stop(Shortcut), Stop(Lan), Stop(Proxy), Stop(Scrambler), Stop(Dns), Stop(Wifi)]
  {
    var run := StopComponents(AllComponents, env);
    assert run.trace[0] == Stop(Shortcut) && run.trace[1] == Stop(Lan) && run.trace[2] == Stop(Proxy);
    assert run.trace[3] == Stop(Scrambler) && run.trace[4] == Stop(Dns) && run.trace[5] == Stop(Wifi);
    run
  }

  /** What the process does for its command line. */
  datatype Action = DoRun | DoClean | UnknownAction(message: string)

  /** The `__main__` block: `argv[1]` picks `clean` or `run`, no argument
      means `run`, and anything else raises. */
  function Dispatch(argv: seq<string>): (a: Action)
    ensures a == DoClean <==> |argv| > 1 && argv[1] == "clean"
    ensures a == DoRun <==> |argv| <= 1 || argv[1] == "run"
    ensures a.UnknownAction? ==> |argv| > 1 && a.message == "unknown action: " + argv[1]
  {
    if |argv| > 1 then
      var action := argv[1];
      if action == "clean" then DoClean
      else if action == "run" then DoRun
      else UnknownAction("unknown action: " + action)
    else DoRun
  }
}

=== FILE: lifecycle.dfy ===
/** Sequencing of component start-up and shut-down in the manager process
    (`start_components` and `stop_components` in manager/main.py).

    A component is one of the six `comp_*` modules. What its `start`, `stop`
    and `__MANDATORY__` do is not visible here, so it is supplied by an
    environment `Env` that says, per component, whether `start` returns
    routes or raises, whether `stop` raises, and whether it is mandatory. */
module Lifecycle {
  import opened Common

  /** The six component modules of the manager, in `ALL_COMPONENTS` order. */
  datatype Comp = Wifi | Dns | Scrambler | Proxy | Lan | Shortcut

  /** Request handlers that can sit in the dispatch table: the four built into
      the manager and any handler a component contributes. */
  datatype Handler = Ping | Connect | Disconnect | IsConnected | Contributed(name: string)

  /** One `(method, url, handler)` triple returned by a component's `start`. */
  datatype Route = Route(verb: string, url: string, handler: Handler) {
    function Key(): (string, string) {
      (verb, url)
    }
  }

  /** The dispatch table `httpd.HANDLERS`: (method, url) to handler. */
  type Table = map<(string, string), Handler>

  /** What a call to `start` does: return a list of routes (`None` when it
      returns `None`), or raise. */
  datatype StartOutcome = Returned(routes: Option<seq<Route>>) | StartRaises

  /** The observable contract of one component. */
  datatype Behavior = Behavior(mandatory: bool, start: StartOutcome, stopRaises: bool)

  /** The behaviour of each of the six components. */
  datatype Env = Env(wifi: Behavior, dns: Behavior, scrambler: Behavior, proxy: Behavior, lan: Behavior, shortcut: Behavior) {
    function Of(c: Comp): Behavior {
      match c
      case Wifi => wifi
      case Dns => dns
      case Scrambler => scrambler
      case Proxy => proxy
      case Lan => lan
      case Shortcut => shortcut
    }
  }

  /** Calls made by the orchestrator, in the order it makes them. */
  datatype Event = RegisterStop(c: Comp) | Start(c: Comp) | Stop(c: Comp)

  /** Why `start_components` raised: the component's own `start` failed and it
      is mandatory, or the compensating `stop` in the except block raised. */
  datatype Cause = StartFailed | CompensatingStopFailed

  datatype Outcome = Completed | Raised(c: Comp, cause: Cause)

  /** The two shared registries: the dispatch table and the shutdown hooks. */
  datatype Registry = Registry(table: Table, hooks: seq<Comp>)

  datatype StartRun = StartRun(trace: seq<Event>, registry: Registry, outcome: Outcome)

  datatype StopRun = StopRun(trace: seq<Event>, failed: seq<Comp>)

  /** Writes the routes into the table one after another, so a later route
      for the same key overwrites an earlier one. */
  function Merge(t: Table, routes: seq<Route>): Table
    decreases |routes|
  {
    if |routes| == 0 then t
    else Merge(t[routes[0].Key() := routes[0].handler], routes[1..])
  }

  /** A component whose failure ends the whole batch: its `start` raises and
      either it is mandatory or its compensating `stop` raises as well. */
  predicate Fatal(b: Behavior) {
    b.start.StartRaises? && (b.mandatory || b.stopRaises)
  }

  /** The exception that escapes for a fatal component: an exception from
      the compensating `stop` replaces the one from `start`. */
  function CauseOf(b: Behavior): Cause {
    if b.stopRaises then CompensatingStopFailed else StartFailed
  }

  /** Index of the first fatal component, or `|comps|` when there is none. */
  function FirstFatal(comps: seq<Comp>, env: Env): (k: nat)
    ensures k <= |comps|
    ensures forall j :: 0 <= j < k ==> !Fatal(env.Of(comps[j]))
    ensures k < |comps| ==> Fatal(env.Of(comps[k]))
    decreases |comps|
  {
    if |comps| == 0 then 0
    else if Fatal(env.Of(comps[0])) then 0
    else 1 + FirstFatal(comps[1..], env)
  }

  /** How many components of the list the orchestrator gets to: all of them,
      or up to and including the first fatal one. */
  function Reached(comps: seq<Comp>, env: Env): nat {
    var k := FirstFatal(comps, env);
    if k < |comps| then k + 1 else |comps|
  }

  /** `start_components(*comps)`: for each component register its `stop` as a
      shutdown hook, call `start`, and on success merge the returned routes
      into the table; on failure call `stop`, then re-raise when the
      component is mandatory and go on with the next one otherwise. */
  function StartComponents(comps: seq<Comp>, env: Env, reg: Registry): (r: StartRun)
    ensures r.registry.hooks == reg.hooks + comps[..Reached(comps, env)]
    ensures r.outcome.Completed? <==> FirstFatal(comps, env) == |comps|
    ensures r.outcome.Raised? ==>
              var k := FirstFatal(comps, env);
              k < |comps| && r.outcome == Raised(comps[k], CauseOf(env.Of(comps[k])))
    decreases |comps|
  {
    if |comps| == 0 then StartRun([], reg, Completed)
    else
      var c := comps[0];
      var b := env.Of(c);
      var registered := reg.(hooks := reg.hooks + [c]);
      match b.start
      case Returned(routes) =>
        var rest := StartComponents(comps[1..], env, registered.(table := Merge(reg.table, routes.GetOr([]))));
        ContinueStep(comps, env, reg.hooks, rest.registry.hooks, rest.outcome);
        StartRun([RegisterStop(c), Start(c)] + rest.trace, rest.registry, rest.outcome)
      case StartRaises =>
        var head := [RegisterStop(c), Start(c), Stop(c)];
        if b.stopRaises then
          ReachedStep(comps, env);
          StartRun(head, registered, Raised(c, CompensatingStopFailed))
        else if b.mandatory then
          ReachedStep(comps, env);
          StartRun(head, registered, Raised(c, StartFailed))
        else
          var rest := StartComponents(comps[1..], env, registered);
          ContinueStep(comps, env, reg.hooks, rest.registry.hooks, rest.outcome);
          StartRun(head + rest.trace, rest.registry, rest.outcome)
  }

  /** Past a head that is not fatal, what the rest of the list reaches and
      how it ends carries over to the whole list. */
  lemma ContinueStep(comps: seq<Comp>, env: Env, hooks: seq<Comp>, after: seq<Comp>, outcome: Outcome)
    requires |comps| > 0 && !Fatal(env.Of(comps[0]))
    requires after == hooks + [comps[0]] + comps[1..][..Reached(comps[1..], env)]
    requires outcome.Completed? <==> FirstFatal(comps[1..], env) == |comps[1..]|
    requires outcome.Raised? ==>
               var k := FirstFatal(comps[1..], env);
               k < |comps[1..]| && outcome == Raised(comps[1..][k], CauseOf(env.Of(comps[1..][k])))
    ensures after == hooks + comps[..Reached(comps, env)]
    ensures outcome.Completed? <==> FirstFatal(comps, env) == |comps|
    ensures outcome.Raised? ==>
              var k := FirstFatal(comps, env);
              k < |comps| && outcome == Raised(comps[k], CauseOf(env.Of(comps[k])))
  {
    ContinueHooks(comps, env, hooks);
    ContinueOutcome(comps, env, outcome);
  }

  lemma ContinueHooks(comps: seq<Comp>, env: Env, hooks: seq<Comp>)
    requires |comps| > 0 && !Fatal(env.Of(comps[0]))
    ensures hooks + [comps[0]] + comps[1..][..Reached(comps[1..], env)] == hooks + comps[..Reached(comps, env)]
  {
    ReachedStep(comps, env);
    var x := comps[1..][..Reached(comps[1..], env)];
    assert hooks + [comps[0]] + x == hooks + ([comps[0]] + x);
  }

  lemma ContinueOutcome(comps: seq<Comp>, env: Env, outcome: Outcome)
    requires |comps| > 0 && !Fatal(env.Of(comps[0]))
    requires outcome.Completed? <==> FirstFatal(comps[1..], env) == |comps[1..]|
    requires outcome.Raised? ==>
               var k := FirstFatal(comps[1..], env);
               k < |comps[1..]| && outcome == Raised(comps[1..][k], CauseOf(env.Of(comps[1..][k])))
    ensures outcome.Completed? <==> FirstFatal(comps, env) == |comps|
    ensures outcome.Raised? ==>
              var k := FirstFatal(comps, env);
              k < |comps| && outcome == Raised(comps[k], CauseOf(env.Of(comps[k])))
  {
    var k := FirstFatal(comps[1..], env);
    assert FirstFatal(comps, env) == k + 1;
    if k < |comps[1..]| {
      assert comps[1..][k] == comps[k + 1];
    }
  }

  /** The reached prefix of a list: just its head when the head is fatal,
      otherwise the head followed by the reached prefix of the rest. */
  lemma ReachedStep(comps: seq<Comp>, env: Env)
    requires |comps| > 0
    ensures Fatal(env.Of(comps[0])) ==> comps[..Reached(comps, env)] == [comps[0]]
    ensures !Fatal(env.Of(comps[0])) ==>
              && Reached(comps, env) == 1 + Reached(comps[1..], env)
              && FirstFatal(comps, env) == 1 + FirstFatal(comps[1..], env)
              && comps[..Reached(comps, env)] == [comps[0]] + comps[1..][..Reached(comps[1..], env)]
  {
    if Fatal(env.Of(comps[0])) {
      assert FirstFatal(comps, env) == 0;
      assert Reached(comps, env) == 1;
    } else {
      assert FirstFatal(comps, env) == 1 + FirstFatal(comps[1..], env);
      ReachedPast(comps, env);
      PrefixCons(comps, Reached(comps[1..], env));
    }
  }

  lemma ReachedPast(comps: seq<Comp>, env: Env)
    requires |comps| > 0
    requires FirstFatal(comps, env) == 1 + FirstFatal(comps[1..], env)
    ensures Reached(comps, env) == 1 + Reached(comps[1..], env)
  {
  }

  lemma PrefixCons(s: seq<Comp>, n: nat)
    requires 0 < |s| && n < |s|
    ensures s[..1 + n] == [s[0]] + s[1..][..n]
  {
  }

  /** `stop_components(*comps)`: call `stop` on every component, last first;
      an exception from one `stop` is logged and the loop goes on. The
      result has no error case and no table: it never raises and never
      touches the dispatch table. */
  function StopComponents(comps: seq<Comp>, env: Env): (r: StopRun)
    ensures |r.trace| == |comps|
    ensures forall i :: 0 <= i < |comps| ==> r.trace[i] == Stop(comps[|comps| - 1 - i])
    ensures forall c :: c in r.failed <==> c in comps && env.Of(c).stopRaises
    decreases |comps|
  {
    if |comps| == 0 then StopRun([], [])
    else
      var last := comps[|comps| - 1];
      var rest := StopComponents(comps[..|comps| - 1], env);
      StopRun([Stop(last)] + rest.trace, (if env.Of(last).stopRaises then [last] else []) + rest.failed)
  }
}

=== FILE: lifecycle_props.dfy ===
/** Properties of `start_components`: the calls it makes, in which order, what
    ends up in the dispatch table, and how a failing component is handled. */
module LifecycleProps {
  import opened Common
  import opened Lifecycle

  /** Which kind of call an event is. */
  datatype CallKind = Registering | Starting | Stopping

  predicate IsCall(e: Event, kind: CallKind) {
    match kind
    case Registering => e.RegisterStop?
    case Starting => e.Start?
    case Stopping => e.Stop?
  }

  /** The components that received calls of one kind, in trace order. */
  function Calls(trace: seq<Event>, kind: CallKind): seq<Comp>
    decreases |trace|
  {
    if |trace| == 0 then []
    else (if IsCall(trace[0], kind) then [trace[0].c] else []) + Calls(trace[1..], kind)
  }

  /** The events for one component reached by the loop: registration, start,
      and the compensating stop when start raised. */
  function Block(c: Comp, b: Behavior): seq<Event> {
    [RegisterStop(c), Start(c)] + (if b.start.StartRaises? then [Stop(c)] else [])
  }

  function Blocks(comps: seq<Comp>, env: Env): seq<Event>
    decreases |comps|
  {
    if |comps| == 0 then [] else Block(comps[0], env.Of(comps[0])) + Blocks(comps[1..], env)
  }

  /** The components of a list whose `start` raises. */
  function FailedStarts(comps: seq<Comp>, env: Env): seq<Comp>
    decreases |comps|
  {
    if |comps| == 0 then []
    else (if env.Of(comps[0]).start.StartRaises? then [comps[0]] else []) + FailedStarts(comps[1..], env)
  }

  /** Every route returned by a component whose `start` succeeds, in list
      order; a `None` return and a raising `start` contribute nothing. */
  function Contributions(comps: seq<Comp>, env: Env): seq<Route>
    decreases |comps|
  {
    if |comps| == 0 then []
    else
      var own := match env.Of(comps[0]).start
        case Returned(routes) => routes.GetOr([])
        case StartRaises => [];
      own + Contributions(comps[1..], env)
  }

  function Lookup(t: Table, key: (string, string)): Option<Handler> {
    if key in t then Some(t[key]) else None
  }

  /** The handler of the last route for `key`, if any route has that key. */
  function LastWrite(routes: seq<Route>, key: (string, string)): Option<Handler>
    decreases |routes|
  {
    if |routes| == 0 then None
    else if routes[|routes| - 1].Key() == key then Some(routes[|routes| - 1].handler)
    else LastWrite(routes[..|routes| - 1], key)
  }

  // ---------------------------------------------------------------------
  // Algebra of the helper definitions

  lemma {:induction false} CallsAppend(a: seq<Event>, b: seq<Event>, kind: CallKind)
    ensures Calls(a + b, kind) == Calls(a, kind) + Calls(b, kind)
    decreases |a|
  {
    if |a| == 0 {
      assert a + b == b;
    } else {
      var h := if IsCall(a[0], kind) then [a[0].c] else [];
      assert (a + b)[0] == a[0];
      assert (a + b)[1..] == a[1..] + b;
      CallsAppend(a[1..], b, kind);
      assert Calls(a + b, kind) == h + Calls(a[1..] + b, kind);
      assert Calls(a, kind) == h + Calls(a[1..], kind);
      assert h + (Calls(a[1..], kind) + Calls(b, kind)) == (h + Calls(a[1..], kind)) + Calls(b, kind);
    }
  }

  lemma {:induction false} BlocksAppend(a: seq<Comp>, b: seq<Comp>, env: Env)
    ensures Blocks(a + b, env) == Blocks(a, env) + Blocks(b, env)
    decreases |a|
  {
    if |a| == 0 {
      assert a + b == b;
    } else {
      var h := Block(a[0], env.Of(a[0]));
      assert (a + b)[0] == a[0];
      assert (a + b)[1..] == a[1..] + b;
      BlocksAppend(a[1..], b, env);
      assert Blocks(a + b, env) == h + Blocks(a[1..] + b, env);
      assert Blocks(a, env) == h + Blocks(a[1..], env);
      assert h + (Blocks(a[1..], env) + Blocks(b, env)) == (h + Blocks(a[1..], env)) + Blocks(b, env);
    }
  }

  lemma {:induction false} FailedStartsAppend(a: seq<Comp>, b: seq<Comp>, env: Env)
    ensures FailedStarts(a + b, env) == FailedStarts(a, env) + FailedStarts(b, env)
    decreases |a|
  {
    if |a| == 0 {
      assert a + b == b;
    } else {
      var h := if env.Of(a[0]).start.StartRaises? then [a[0]] else [];
      assert (a + b)[0] == a[0];
      assert (a + b)[1..] == a[1..] + b;
      FailedStartsAppend(a[1..], b, env);
      assert FailedStarts(a + b, env) == h + FailedStarts(a[1..] + b, env);
      assert FailedStarts(a, env) == h + FailedStarts(a[1..], env);
      assert h + (FailedStarts(a[1..], env) + FailedStarts(b, env)) == (h + FailedStarts(a[1..], env)) + FailedStarts(b, env);
    }
  }

  lemma {:induction false} MergeAppend(t: Table, a: seq<Route>, b: seq<Route>)
    ensures Merge(t, a + b) == Merge(Merge(t, a), b)
    decreases |a|
  {
    if |a| == 0 {
      assert a + b == b;
    } else {
      assert (a + b)[1..] == a[1..] + b;
      MergeAppend(t[a[0].Key() := a[0].handler], a[1..], b);
    }
  }

  lemma CallsCons(e: Event, t: seq<Event>, kind: CallKind)
    ensures Calls([e] + t, kind) == (if IsCall(e, kind) then [e.c] else []) + Calls(t, kind)
  {
    assert ([e] + t)[1..] == t;
  }

  lemma BlockCalls(c: Comp, b: Behavior)
    ensures Calls(Block(c, b), Registering) == [c]
    ensures Calls(Block(c, b), Starting) == [c]
    ensures Calls(Block(c, b), Stopping) == (if b.start.StartRaises? then [c] else [])
  {
    var tail: seq<Event> := if b.start.StartRaises? then [Stop(c)] else [];
    var empty: seq<Event> := [];
    assert Block(c, b) == [RegisterStop(c)] + ([Start(c)] + tail);
    forall kind: CallKind
      ensures Calls(Block(c, b), kind) ==
              (if IsCall(RegisterStop(c), kind) then [c] else [])
              + (if IsCall(Start(c), kind) then [c] else [])
              + Calls(tail, kind)
    {
      CallsCons(RegisterStop(c), [Start(c)] + tail, kind);
      CallsCons(Start(c), tail, kind);
    }
    forall kind: CallKind
      ensures Calls(tail, kind) == (if b.start.StartRaises? && IsCall(Stop(c), kind) then [c] else [])
    {
      if b.start.StartRaises? {
        assert tail == [Stop(c)] + empty;
        CallsCons(Stop(c), empty, kind);
      }
    }
  }

  /** The calls made for a list of blocks: every component is registered and
      started, in order, and exactly the failed ones are stopped. */
  lemma {:induction false} BlocksCalls(comps: seq<Comp>, env: Env)
    ensures Calls(Blocks(comps, env), Registering) == comps
    ensures Calls(Blocks(comps, env), Starting) == comps
    ensures Calls(Blocks(comps, env), Stopping) == FailedStarts(comps, env)
    decreases |comps|
  {
    if |comps| != 0 {
      var c := comps[0];
      var blk := Block(c, env.Of(c));
      var rest := Blocks(comps[1..], env);
      assert Blocks(comps, env) == blk + rest;
      assert comps == [c] + comps[1..];
      assert FailedStarts(comps, env) == (if env.Of(c).start.StartRaises? then [c] else []) + FailedStarts(comps[1..], env);
      BlocksCalls(comps[1..], env);
      BlockCalls(c, env.Of(c));
      CallsAppend(blk, rest, Registering);
      CallsAppend(blk, rest, Starting);
      CallsAppend(blk, rest, Stopping);
    }
  }

  /** Inside a list of blocks a start call directly follows the registration
      of the same component, and a stop call directly follows the failed
      start of the same component. */
  lemma {:induction false} BlocksShape(comps: seq<Comp>, env: Env)
    ensures var t := Blocks(comps, env);
            forall i :: 0 <= i < |t| && t[i].Start? ==> 0 < i && t[i - 1] == RegisterStop(t[i].c)
    ensures var t := Blocks(comps, env);
            forall i :: 0 <= i < |t| && t[i].Stop? ==>
              0 < i && t[i - 1] == Start(t[i].c) && env.Of(t[i].c).start.StartRaises?
    ensures |Blocks(comps, env)| > 0 ==> Blocks(comps, env)[0].RegisterStop?
    decreases |comps|
  {
    if |comps| != 0 {
      var blk := Block(comps[0], env.Of(comps[0]));
      var rest := Blocks(comps[1..], env);
      var t := Blocks(comps, env);
      BlocksShape(comps[1..], env);
      assert t == blk + rest;
      forall i | 0 <= i < |t| && (t[i].Start? || t[i].Stop?)
        ensures 0 < i
        ensures t[i].Start? ==> t[i - 1] == RegisterStop(t[i].c)
        ensures t[i].Stop? ==> t[i - 1] == Start(t[i].c) && env.Of(t[i].c).start.StartRaises?
      {
        if i >= |blk| {
          var j := i - |blk|;
          assert t[i] == rest[j];
          assert j > 0;
          assert t[i - 1] == rest[j - 1];
        }
      }
    }
  }

  lemma {:induction false} FirstFatalSkip(comps: seq<Comp>, env: Env, n: nat)
    requires n <= |comps|
    requires forall j :: 0 <= j < n ==> !Fatal(env.Of(comps[j]))
    ensures FirstFatal(comps, env) == n + FirstFatal(comps[n..], env)
    decreases n
  {
    if n > 0 {
      assert comps[1..][n - 1..] == comps[n..];
      FirstFatalSkip(comps[1..], env, n - 1);
    }
  }

  /** The last route written for a key decides its handler. */
  lemma {:induction false} MergeLastWriteWins(t: Table, routes: seq<Route>, key: (string, string))
    ensures Lookup(Merge(t, routes), key) ==
            (if LastWrite(routes, key).Some? then LastWrite(routes, key) else Lookup(t, key))
    decreases |routes|
  {
    if |routes| != 0 {
      var front := routes[..|routes| - 1];
      var last := routes[|routes| - 1];
      assert routes == front + [last];
      MergeAppend(t, front, [last]);
      assert Merge(Merge(t, front), [last]) == Merge(t, front)[last.Key() := last.handler];
      MergeLastWriteWins(t, front, key);
    }
  }

  // ---------------------------------------------------------------------
  // Properties of start_components

  lemma BlocksCons(c: Comp, rest: seq<Comp>, env: Env)
    ensures Blocks([c] + rest, env) == Block(c, env.Of(c)) + Blocks(rest, env)
  {
    assert ([c] + rest)[1..] == rest;
  }

  /** The trace of `start_components` is one block per reached component. */
  lemma {:induction false} StartTraceIsBlocks(comps: seq<Comp>, env: Env, reg: Registry)
    ensures StartComponents(comps, env, reg).trace == Blocks(comps[..Reached(comps, env)], env)
    decreases |comps|
  {
    if |comps| != 0 {
      var c := comps[0];
      var b := env.Of(c);
      var registered := reg.(hooks := reg.hooks + [c]);
      ReachedStep(comps, env);
      var blk := Block(c, b);
      if Fatal(b) {
        BlocksCons(c, [], env);
        assert [c] + [] == [c];
        assert StartComponents(comps, env, reg).trace == blk;
      } else {
        var prefix := comps[1..][..Reached(comps[1..], env)];
        BlocksCons(c, prefix, env);
        match b.start
        case Returned(routes) =>
          var next := registered.(table := Merge(reg.table, routes.GetOr([])));
          StartTraceIsBlocks(comps[1..], env, next);
          assert blk == [RegisterStop(c), Start(c)];
          assert StartComponents(comps, env, reg).trace == blk + StartComponents(comps[1..], env, next).trace;
        case StartRaises =>
          StartTraceIsBlocks(comps[1..], env, registered);
          assert StartComponents(comps, env, reg).trace == blk + StartComponents(comps[1..], env, registered).trace;
      }
    }
  }

  /** Every reached component is registered as a shutdown hook and started,
      both in list order; exactly those whose start raised are stopped, so
      no component that started successfully is stopped. */
  lemma StartCalls(comps: seq<Comp>, env: Env, reg: Registry)
    ensures var r := StartComponents(comps, env, reg);
            var reached := comps[..Reached(comps, env)];
            && Calls(r.trace, Registering) == reached
            && Calls(r.trace, Starting) == reached
            && Calls(r.trace, Stopping) == FailedStarts(reached, env)
  {
    StartTraceIsBlocks(comps, env, reg);
    BlocksCalls(comps[..Reached(comps, env)], env);
  }

  /** The stop hook of a component is registered immediately before its
      start is called, and a stop call only ever follows, immediately, a
      start of the same component that raised. */
  lemma {:induction false} StartOrdering(comps: seq<Comp>, env: Env, reg: Registry)
    ensures var t := StartComponents(comps, env, reg).trace;
            forall i :: 0 <= i < |t| && t[i].Start? ==> 0 < i && t[i - 1] == RegisterStop(t[i].c)
    ensures var t := StartComponents(comps, env, reg).trace;
            forall i :: 0 <= i < |t| && t[i].Stop? ==>
              0 < i && t[i - 1] == Start(t[i].c) && env.Of(t[i].c).start.StartRaises?
  {
    StartTraceIsBlocks(comps, env, reg);
    BlocksShape(comps[..Reached(comps, env)], env);
  }

  /** The dispatch table after `start_components` is the old table with the
      routes of every successfully started reached component written in
      order on top of it. */
  lemma {:induction false} StartTable(comps: seq<Comp>, env: Env, reg: Registry)
    ensures StartComponents(comps, env, reg).registry.table ==
            Merge(reg.table, Contributions(comps[..Reached(comps, env)], env))
    decreases |comps|
  {
    if |comps| != 0 {
      var c := comps[0];
      var b := env.Of(c);
      var registered := reg.(hooks := reg.hooks + [c]);
      ReachedStep(comps, env);
      if Fatal(b) {
        assert Contributions([c], env) == [] + Contributions([], env);
      } else {
        var prefix := comps[1..][..Reached(comps[1..], env)];
        assert ([c] + prefix)[1..] == prefix;
        match b.start
        case Returned(routes) =>
          var t1 := Merge(reg.table, routes.GetOr([]));
          StartTable(comps[1..], env, registered.(table := t1));
          MergeAppend(reg.table, routes.GetOr([]), Contributions(prefix, env));
        case StartRaises =>
          StartTable(comps[1..], env, registered);
          assert Contributions([c] + prefix, env) == [] + Contributions(prefix, env);
          assert [] + Contributions(prefix, env) == Contributions(prefix, env);
      }
    }
  }

  /** For any key, the table after `start_components` holds the handler of
      the last contributed route with that key, or what it held before. */
  lemma StartTableLookup(comps: seq<Comp>, env: Env, reg: Registry, key: (string, string))
    ensures var routes := Contributions(comps[..Reached(comps, env)], env);
            Lookup(StartComponents(comps, env, reg).registry.table, key) ==
            (if LastWrite(routes, key).Some? then LastWrite(routes, key) else Lookup(reg.table, key))
  {
    StartTable(comps, env, reg);
    MergeLastWriteWins(reg.table, Contributions(comps[..Reached(comps, env)], env), key);
  }

  /** An optional component whose start raises (and whose stop does not) is
      stopped exactly once, right after its start, and the loop then goes on
      with the remaining components exactly as a fresh call would. */
  lemma OptionalFailureContinues(comps: seq<Comp>, env: Env, reg: Registry, i: nat)
    requires i < |comps|
    requires forall j :: 0 <= j < i ==> !Fatal(env.Of(comps[j]))
    requires env.Of(comps[i]).start.StartRaises?
    requires !env.Of(comps[i]).mandatory && !env.Of(comps[i]).stopRaises
    ensures var r := StartComponents(comps, env, reg);
            var later := StartComponents(comps[i + 1..], env, reg);
            && r.trace == Blocks(comps[..i], env)
                          + [RegisterStop(comps[i]), Start(comps[i]), Stop(comps[i])]
                          + later.trace
            && r.outcome == later.outcome
  {
    var c := comps[i];
    var rest := comps[i + 1..];
    ReachedSkip(comps, env, i);
    StartTraceIsBlocks(comps, env, reg);
    StartTraceIsBlocks(rest, env, reg);
    var tail := rest[..Reached(rest, env)];
    BlocksAppend(comps[..i] + [c], tail, env);
    SingleBlock(comps[..i], c, env);
    OutcomeSkip(comps, env, reg, i);
  }

  /** Past a prefix of harmless components ending in one that is not fatal,
      the reached part of the list is that prefix followed by the reached
      part of the rest. */
  lemma {:induction false} ReachedSkip(comps: seq<Comp>, env: Env, i: nat)
    requires i < |comps|
    requires forall j :: 0 <= j <= i ==> !Fatal(env.Of(comps[j]))
    ensures Reached(comps, env) == i + 1 + Reached(comps[i + 1..], env)
    ensures comps[..Reached(comps, env)] == comps[..i] + [comps[i]] + comps[i + 1..][..Reached(comps[i + 1..], env)]
  {
    FirstFatalSkip(comps, env, i + 1);
    PrefixSplit(comps, i, Reached(comps[i + 1..], env));
  }

  lemma PrefixSplit(s: seq<Comp>, i: nat, n: nat)
    requires i + 1 + n <= |s|
    ensures s[..i + 1 + n] == s[..i] + [s[i]] + s[i + 1..][..n]
  {
    assert s[..i + 1] == s[..i] + [s[i]];
    assert s[..i + 1 + n] == s[..i + 1] + s[i + 1..][..n];
  }

  lemma {:induction false} OutcomeSkip(comps: seq<Comp>, env: Env, reg: Registry, i: nat)
    requires i < |comps|
    requires forall j :: 0 <= j <= i ==> !Fatal(env.Of(comps[j]))
    ensures StartComponents(comps, env, reg).outcome == StartComponents(comps[i + 1..], env, reg).outcome
  {
    var rest := comps[i + 1..];
    FirstFatalSkip(comps, env, i + 1);
    var k := FirstFatal(rest, env);
    if k < |rest| {
      assert comps[i + 1 + k] == rest[k];
    }
  }

  /** A mandatory component whose start raises ends the batch: it is stopped
      once, the call raises, nothing after it is registered or started, and
      of the components before it only those whose start raised were
      stopped. */
  lemma MandatoryFailureAborts(comps: seq<Comp>, env: Env, reg: Registry, i: nat)
    requires i < |comps|
    requires forall j :: 0 <= j < i ==> !Fatal(env.Of(comps[j]))
    requires env.Of(comps[i]).start.StartRaises? && env.Of(comps[i]).mandatory
    ensures var r := StartComponents(comps, env, reg);
            && r.outcome.Raised? && r.outcome.c == comps[i]
            && r.trace == Blocks(comps[..i], env) + [RegisterStop(comps[i]), Start(comps[i]), Stop(comps[i])]
            && Calls(r.trace, Starting) == comps[..i + 1]
            && Calls(r.trace, Stopping) == FailedStarts(comps[..i], env) + [comps[i]]
            && r.registry.hooks == reg.hooks + comps[..i + 1]
  {
    var c := comps[i];
    FirstFatalSkip(comps, env, i);
    assert FirstFatal(comps[i..], env) == 0;
    assert Reached(comps, env) == i + 1;
    assert comps[..i + 1] == comps[..i] + [c];
    StartTraceIsBlocks(comps, env, reg);
    StartCalls(comps, env, reg);
    SingleBlock(comps[..i], c, env);
  }

  /** Appending one component whose start raises adds its three calls and
      one failed start. */
  lemma SingleBlock(a: seq<Comp>, c: Comp, env: Env)
    requires env.Of(c).start.StartRaises?
    ensures Blocks(a + [c], env) == Blocks(a, env) + [RegisterStop(c), Start(c), Stop(c)]
    ensures FailedStarts(a + [c], env) == FailedStarts(a, env) + [c]
  {
    BlocksAppend(a, [c], env);
    BlocksCons(c, [], env);
    assert [c] + [] == [c];
    FailedStartsAppend(a, [c], env);
    assert FailedStarts([c], env) == [c] + FailedStarts([], env);
  }

  /** When no component is fatal, every component is registered and started
      and the call returns normally. */
  lemma {:induction false} CompletedStartsAll(comps: seq<Comp>, env: Env, reg: Registry)
    requires forall j :: 0 <= j < |comps| ==> !Fatal(env.Of(comps[j]))
    ensures var r := StartComponents(comps, env, reg);
            && r.outcome == Completed
            && Calls(r.trace, Starting) == comps
            && r.registry.hooks == reg.hooks + comps
  {
    FirstFatalSkip(comps, env, |comps|);
    assert comps[..|comps|] == comps;
    StartCalls(comps, env, reg);
  }
}

=== FILE: shell.dfy ===
/** The command helpers of manager/utils/shell.py: launching a supervised
    Python helper, monitoring it until it exits, and the synchronous
    `call` / `check_call` / `check_output` / `Popen` wrappers.

    Nothing is spawned here. What the operating system does is passed in:
    the result of the grace-period `poll`, what `communicate` returns (or
    that it raises), and the exit status and output of a `su` shell. The
    global switch `USE_SU` is the parameter `useSu`. */
module Shell {
  import opened Common
  import opened ShellText

  const BusyboxPath: string := "/data/data/fq.router2/busybox"
  const PythonPath: string := "/data/data/fq.router2/python/bin/python-launcher.sh"

  /** Characters of output kept in the log when a monitored process fails. */
  const ExcerptLength: nat := 1000

  /** How a process is spawned: its own argv directly, or a `su` shell that
      receives a script on its stdin. */
  datatype Invocation = Direct(argv: seq<string>) | ThroughSu(script: string)

  /** `Popen(args)`: with escalation a `su` shell fed the joined command line,
      otherwise the arguments as they are. */
  function Popen(args: seq<string>, useSu: bool): (inv: Invocation)
    ensures inv.ThroughSu? <==> useSu
    ensures inv.Direct? ==> inv.argv == args
  {
    if useSu then ThroughSu(SuScript(args)) else Direct(args)
  }

  /** With escalation and no newline in any argument, the script `Popen`
      writes splits at newlines into the joined command line, `exit`, and
      the empty piece after the final newline. */
  lemma PopenScriptLines(args: seq<string>)
    requires forall k :: 0 <= k < |args| ==> '\n' !in args[k]
    ensures Popen(args, true).ThroughSu?
    ensures Split(Popen(args, true).script, '\n') == [CommandLine(args), "exit", ""]
  {
    SuScriptLines(args);
  }

  // ---------------------------------------------------------------------
  // launch_python

  /** The command that starts Python module `name` through busybox `sh`. */
  function LaunchCommand(name: string, args: seq<string>): (cmd: seq<string>)
    ensures |cmd| == 5 + |args|
    ensures cmd[..5] == [BusyboxPath, "sh", PythonPath, "-m", name]
    ensures cmd[5..] == args
  {
    [BusyboxPath, "sh", PythonPath, "-m", name] + args
  }

  /** The lines `launch_python` logs: the command line it is about to run,
      then either the exit output of a process that did not survive the
      grace period (or that this output could not be read) or the start of
      the process with its pid. */
  datatype LaunchLog =
    | LaunchCommandLogged(command: string)
    | ExitOutput(name: string, output: string)
    | ExitOutputUnavailable(name: string)
    | LaunchStarted(name: string, pid: int)

  datatype LaunchOutcome = Running(proc: Invocation) | StartupError(message: string)

  /** What `launch_python` did: the process it spawned, what it returned or
      raised, how many monitors it spawned, and what it logged. */
  datatype Launch = Launch(spawned: Invocation, outcome: LaunchOutcome, monitors: nat, logs: seq<LaunchLog>)

  /** `launch_python(name, args)`: spawn the command, wait the grace period,
      and fail when `poll` then reports an exit status (`polled` is that
      status, `None` while the process still runs), whatever the status is.
      `exitOutput` is what `communicate` returns for an exited process, or
      `None` when it raises; that failure is only logged. `pid` is the
      process id the operating system assigned. */
  function LaunchPython(name: string, args: seq<string>, useSu: bool,
                        polled: Option<int>, exitOutput: Option<string>, pid: int): (r: Launch)
    ensures r.spawned == Popen(LaunchCommand(name, args), useSu)
    ensures r.outcome.StartupError? <==> polled.Some?
    ensures r.outcome.StartupError? ==> r.outcome.message == "failed to start " + name && r.monitors == 0
    ensures r.outcome.Running? ==> r.outcome.proc == r.spawned && r.monitors == 1
    ensures |r.logs| == 2 && r.logs[0].LaunchCommandLogged?
    ensures r.spawned.ThroughSu? ==> r.spawned.script == r.logs[0].command + "\n" + "exit\n"
    ensures r.outcome.Running? ==> r.logs[1] == LaunchStarted(name, pid)
    ensures r.outcome.StartupError? ==> (r.logs[1].ExitOutputUnavailable? <==> exitOutput.None?)
    ensures r.outcome.StartupError? && exitOutput.Some? ==> r.logs[1] == ExitOutput(name, exitOutput.value)
  {
    var command := LaunchCommand(name, args);
    var proc := Popen(command, useSu);
    var announced := LaunchCommandLogged(CommandLine(command));
    if polled.Some? then
      var log := match exitOutput
        case Some(out) => ExitOutput(name, out)
        case None => ExitOutputUnavailable(name);
      Launch(proc, StartupError("failed to start " + name), 0, [announced, log])
    else
      Launch(proc, Running(proc), 1, [announced, LaunchStarted(name, pid)])
  }

  // ---------------------------------------------------------------------
  // monitor_process

  /** What `communicate` does for a monitored process: return its output and
      then its exit status, or raise. */
  datatype Communicated = Finished(output: string, code: int) | CommunicateRaised

  /** The `on_exit` argument: absent, or a callback that returns or raises. */
  datatype OnExit = NoHook | Hook(raises: bool)

  datatype MonitorLog =
    | OutputExcerpt(name: string, text: string)
    | Died(name: string)
    | Exited(name: string)
    | HookFailed(name: string)

  /** What `monitor_process` did: its log lines and how many times it called
      `on_exit`. It has no error case: nothing escapes a monitor. */
  datatype MonitorRun = MonitorRun(logs: seq<MonitorLog>, hookCalls: nat)

  /** Python's `s[-n:]` for `n > 0`: the last `n` characters, or all of `s`. */
  function Tail(s: string, n: nat): (t: string)
    requires n > 0
    ensures |t| == Min(n, |s|)
    ensures s == s[..|s| - |t|] + t
  {
    if |s| <= n then s else s[|s| - n..]
  }

  function MonitorProcess(name: string, comm: Communicated, onExit: OnExit): (r: MonitorRun)
    ensures r.hookCalls == (if onExit.Hook? then 1 else 0)
    ensures forall k :: 0 <= k < |r.logs| && r.logs[k].OutputExcerpt? ==>
              comm.Finished? && comm.code != 0 &&
              |r.logs[k].text| == Min(ExcerptLength, |comm.output|) &&
              comm.output == comm.output[..|comm.output| - |r.logs[k].text|] + r.logs[k].text
    ensures comm.Finished? && comm.code != 0 ==> |r.logs| > 0 && r.logs[0].OutputExcerpt?
    ensures Died(name) in r.logs <==> comm.CommunicateRaised?
    ensures Exited(name) in r.logs
    ensures HookFailed(name) in r.logs <==> onExit == Hook(true)
    ensures r.logs[|r.logs| - 1] == (if onExit == Hook(true) then HookFailed(name) else Exited(name))
  {
    var watched := match comm
      case Finished(output, code) =>
        if code != 0 then [OutputExcerpt(name, Tail(output, ExcerptLength))] else []
      case CommunicateRaised => [Died(name)];
    var hooked := match onExit
      case NoHook => []
      case Hook(raises) => if raises then [HookFailed(name)] else [];
    MonitorRun(watched + [Exited(name)] + hooked, if onExit.Hook? then 1 else 0)
  }

  // ---------------------------------------------------------------------
  // call, check_call, check_output

  /** What a `su` shell reports once `communicate` returns. */
  datatype ShellRun = ShellRun(code: int, output: string)

  /** The error `subprocess.CalledProcessError(returncode, cmd, output)`. */
  datatype ExecError = CalledProcessError(returncode: int, cmd: seq<string>, output: Option<string>)

  /** A synchronous helper either goes through `su` (its script and what it
      returns) or hands the arguments unchanged to the `subprocess`
      function of the same name. */
  datatype Sync<T> = ViaSu(script: string, value: T) | Delegated(argv: seq<string>)

  /** `call(args)`: the exit status of the shell. */
  function Call(args: seq<string>, useSu: bool, sh: ShellRun): (r: Sync<int>)
    ensures r.ViaSu? <==> useSu
    ensures r.ViaSu? ==> Popen(args, true) == ThroughSu(r.script) && r.value == sh.code
    ensures r.Delegated? ==> r.argv == args
  {
    if useSu then ViaSu(SuScript(args), sh.code) else Delegated(args)
  }

  /** `check_call(args)`: 0 on a zero exit status, otherwise an error that
      carries the status and the arguments. */
  function CheckCall(args: seq<string>, useSu: bool, sh: ShellRun): (r: Sync<Result<int, ExecError>>)
    ensures r.ViaSu? <==> useSu
    ensures r.ViaSu? ==> Popen(args, true) == ThroughSu(r.script)
    ensures r.ViaSu? ==> (r.value.Success? <==> sh.code == 0)
    ensures r.ViaSu? && r.value.Success? ==> r.value.value == 0
    ensures r.ViaSu? && r.value.Failure? ==> r.value.error == CalledProcessError(sh.code, args, None)
    ensures r.Delegated? ==> r.argv == args
  {
    if useSu then
      var value := if sh.code != 0 then Failure(CalledProcessError(sh.code, args, None)) else Success(0);
      ViaSu(SuScript(args), value)
    else Delegated(args)
  }

  /** `check_output(args)`: the captured output on a zero exit status,
      otherwise an error that carries the status and the output. */
  function CheckOutput(args: seq<string>, useSu: bool, sh: ShellRun): (r: Sync<Result<string, ExecError>>)
    ensures r.ViaSu? <==> useSu
    ensures r.ViaSu? ==> Popen(args, true) == ThroughSu(r.script)
    ensures r.ViaSu? ==> (r.value.Success? <==> sh.code == 0)
    ensures r.ViaSu? && r.value.Success? ==> r.value.value == sh.output
    ensures r.ViaSu? && r.value.Failure? ==> r.value.error == CalledProcessError(sh.code, args, Some(sh.output))
    ensures r.Delegated? ==> r.argv == args
  {
    if useSu then
      var value := if sh.code != 0 then Failure(CalledProcessError(sh.code, args, Some(sh.output))) else Success(sh.output);
      ViaSu(SuScript(args), value)
    else Delegated(args)
  }

  /** Every helper that escalates writes the same script for the same
      arguments, and so does `launch_python` for its command. */
  lemma SameScriptEverywhere(args: seq<string>, sh: ShellRun, name: string, polled: Option<int>, out: Option<string>, pid: int)
    ensures Call(args, true, sh).script == SuScript(args)
    ensures CheckCall(args, true, sh).script == SuScript(args)
    ensures CheckOutput(args, true, sh).script == SuScript(args)
    ensures Popen(args, true) == ThroughSu(SuScript(args))
    ensures LaunchPython(name, args, true, polled, out, pid).spawned == ThroughSu(SuScript(LaunchCommand(name, args)))
  {
  }

  /** With escalation, when neither the module name nor an argument contains
      a newline, the script written for `launch_python` splits at newlines
      into the joined launch command, `exit`, and a final empty piece. This
      is a statement about the text only, not about how a shell parses it. */
  lemma LaunchScriptLines(name: string, args: seq<string>, polled: Option<int>, out: Option<string>, pid: int)
    requires '\n' !in name
    requires forall k :: 0 <= k < |args| ==> '\n' !in args[k]
    ensures var spawned := LaunchPython(name, args, true, polled, out, pid).spawned;
            spawned.ThroughSu? &&
            Split(spawned.script, '\n') == [CommandLine(LaunchCommand(name, args)), "exit", ""]
  {
    LaunchCommandNoNewline(name, args);
    PopenScriptLines(LaunchCommand(name, args));
  }

  lemma LaunchCommandNoNewline(name: string, args: seq<string>)
    requires '\n' !in name
    requires forall k :: 0 <= k < |args| ==> '\n' !in args[k]
    ensures forall k :: 0 <= k < |LaunchCommand(name, args)| ==> '\n' !in LaunchCommand(name, args)[k]
  {
    var cmd := LaunchCommand(name, args);
    var fixed := [BusyboxPath, "sh", PythonPath, "-m", name];
    assert '\n' !in BusyboxPath && '\n' !in PythonPath;
    forall k | 0 <= k < |cmd|
      ensures '\n' !in cmd[k]
    {
      if k < 5 {
        assert cmd[k] == fixed[k];
      } else {
        assert cmd[k] == args[k - 5];
      }
    }
  }

  /** Through `su`, `check_call` and `check_output` succeed exactly when
      `call` returns 0, and their errors carry the status `call` returns. */
  lemma CheckedHelpersAgreeWithCall(args: seq<string>, sh: ShellRun)
    ensures var code := Call(args, true, sh).value;
            && (CheckCall(args, true, sh).value.Success? <==> code == 0)
            && (CheckOutput(args, true, sh).value.Success? <==> code == 0)
            && (code != 0 ==> CheckCall(args, true, sh).value.error.returncode == code)
            && (code != 0 ==> CheckOutput(args, true, sh).value.error.returncode == code)
  {
  }
}

=== FILE: shell_text.dfy ===
/** Text built by the command helpers of manager/utils/shell.py: the command
    line joined with single spaces and the script written to the stdin of a
    `su` shell. */
module ShellText {

  /** Python's `sep.join(parts)`. */
  function Join(parts: seq<string>, sep: string): string
    decreases |parts|
  {
    if |parts| == 0 then ""
    else if |parts| == 1 then parts[0]
    else parts[0] + sep + Join(parts[1..], sep)
  }

  /** Position of the first occurrence of `ch` in `s`. */
  function IndexOf(s: string, ch: char): (i: nat)
    requires ch in s
    ensures i < |s| && s[i] == ch
    ensures forall k :: 0 <= k < i ==> s[k] != ch
    decreases |s|
  {
    if s[0] == ch then 0 else 1 + IndexOf(s[1..], ch)
  }

  /** Python's `s.split(sep)` for a one-character separator: the pieces
      between separators, including empty ones, and never an empty list. */
  function Split(s: string, sep: char): (parts: seq<string>)
    ensures |parts| >= 1
    ensures forall k :: 0 <= k < |parts| ==> sep !in parts[k]
    decreases |s|
  {
    if sep !in s then [s]
    else
      var i := IndexOf(s, sep);
      [s[..i]] + Split(s[i + 1..], sep)
  }

  /** The command line a `su` shell executes: the arguments joined by
      single spaces. */
  function CommandLine(args: seq<string>): string {
    Join(args, " ")
  }

  /** Everything written to the stdin of `su`: the command line, a newline,
      and the `exit` directive on a line of its own. */
  function SuScript(args: seq<string>): string {
    CommandLine(args) + "\n" + "exit\n"
  }

  /** A character that occurs in no part and is not in the separator does
      not occur in the joined text either. */
  lemma {:induction false} JoinAvoids(parts: seq<string>, sep: string, ch: char)
    requires forall k :: 0 <= k < |parts| ==> ch !in parts[k]
    requires ch !in sep
    ensures ch !in Join(parts, sep)
    decreases |parts|
  {
    if |parts| > 1 {
      JoinAvoids(parts[1..], sep, ch);
    }
  }

  /** Splitting stops at the first separator. */
  lemma SplitFirst(head: string, sep: char, rest: string)
    requires sep !in head
    ensures Split(head + [sep] + rest, sep) == [head] + Split(rest, sep)
  {
    var s := head + [sep] + rest;
    assert s[|head|] == sep;
    var i := IndexOf(s, sep);
    assert forall k :: 0 <= k < |head| ==> s[k] == head[k];
    assert i == |head|;
    assert s[..i] == head;
    assert s[i + 1..] == rest;
  }

  /** Splitting the joined text gives back the parts, provided there is at
      least one part and no part contains the separator. */
  lemma {:induction false} SplitJoin(parts: seq<string>, sep: char)
    requires |parts| >= 1
    requires forall k :: 0 <= k < |parts| ==> sep !in parts[k]
    ensures Split(Join(parts, [sep]), sep) == parts
    decreases |parts|
  {
    if |parts| > 1 {
      SplitFirst(parts[0], sep, Join(parts[1..], [sep]));
      SplitJoin(parts[1..], sep);
    }
  }

  /** Joining the pieces of a split restores the text exactly. */
  lemma {:induction false} JoinSplit(s: string, sep: char)
    ensures Join(Split(s, sep), [sep]) == s
    decreases |s|
  {
    if sep in s {
      var i := IndexOf(s, sep);
      var head := s[..i];
      var tail := s[i + 1..];
      var rest := Split(tail, sep);
      assert Split(s, sep) == [head] + rest;
      JoinCons(head, rest, [sep]);
      JoinSplit(tail, sep);
      assert s == head + [sep] + tail;
    } else {
      assert Split(s, sep) == [s];
    }
  }

  lemma JoinCons(head: string, rest: seq<string>, sep: string)
    requires |rest| >= 1
    ensures Join([head] + rest, sep) == head + sep + Join(rest, sep)
  {
    assert ([head] + rest)[1..] == rest;
  }

  /** Joining with spaces loses argument boundaries: a single argument that
      contains a space gives the same command line, and so the same `su`
      script, as two arguments. */
  lemma JoinLosesBoundaries()
    ensures ["a b"] != ["a", "b"]
    ensures CommandLine(["a b"]) == CommandLine(["a", "b"])
    ensures SuScript(["a b"]) == SuScript(["a", "b"])
  {
    assert ["a b"][0] != ["a", "b"][0];
    assert Join(["b"], " ") == "b";
  }

  /** When no argument contains a newline, the `su` script consists of
      exactly two lines, the command line and `exit`, followed by the final
      newline. */
  lemma SuScriptLines(args: seq<string>)
    requires forall k :: 0 <= k < |args| ==> '\n' !in args[k]
    ensures Split(SuScript(args), '\n') == [CommandLine(args), "exit", ""]
  {
    var line := CommandLine(args);
    JoinAvoids(args, " ", '\n');
    var exitLine: string := "exit\n";
    assert SuScript(args) == line + ['\n'] + exitLine;
    SplitFirst(line, '\n', exitLine);
    ExitLine();
  }

  lemma ExitLine()
    ensures Split("exit\n", '\n') == ["exit", ""]
  {
    var exitLine: string := "exit\n";
    assert exitLine == "exit" + ['\n'] + "";
    SplitFirst("exit", '\n', "");
  }

  /** Splitting the first line of the script at single spaces gives back
      the arguments, when no argument contains a space or a newline. This is
      a statement about the text only: a shell also drops empty words and
      interprets tabs, quotes, backslashes and metacharacters. */
  lemma SuScriptRecoversArgs(args: seq<string>)
    requires |args| >= 1
    requires forall k :: 0 <= k < |args| ==> ' ' !in args[k] && '\n' !in args[k]
    ensures Split(Split(SuScript(args), '\n')[0], ' ') == args
  {
    SuScriptLines(args);
    SplitJoin(args, ' ');
  }
}
